=== FILE: README.md ===
# Kindo message producer: dispatch and normalisation

A Dafny model of the client side of the Kindo message producer. A caller hands
the producer a message (`event_type`, `message_channel`, `behavior`,
`payload`, optional `security_level`). The producer fills in the default
security level, validates the message against the producer schema, sends it
either as a signed HTTPS POST to a URL or as a synchronous Lambda invocation by
ARN, and turns what comes back into a tracking id or an exception.

The repository carries three generations of the client, each modelled by its
own module over shared definitions:

- `ProducerLatest` — `clients/kindo_message_python_client/producer.py`:
  `validate_message_with_schema`, `send_to_producer` (URL) and
  `send_to_producer_via_arn` (ARN, with the full response normalisation tree).
- `ProducerPackaged` — `clients/python/kindo_message_client/producer.py`:
  URL path, default-fill written inline.
- `ProducerLegacy` — `clients/python/producer.py`: URL path, no default-fill.

Shared modules: `JsonValues` (decoded JSON values; Python dicts as ordered
bindings; `str`/`repr` rendering), `Decimal` (`str(int)` and reading it
back), `Outcomes` (the outcome type, the error texts and the exception-wrapping
rule), `Schema` (the message shape, default-fill, validation), `HttpResult`
(status mapping of the URL path), `LambdaResult` (normalisation of Lambda
answers), `Trace` (what an entry point did, in order), `Scenarios` (the
client tests' cases).

Modelling choices:

- A message, and every decoded dict, is a sequence of `(key, value)` bindings
  in insertion order, as a Python dict keeps them. Default-filling appends the
  new binding at the end, which is what `message["security_level"] = "normal"`
  does.
- An entry point returns `Success(trackingId)` or `Failure(kind, msg)`.
  `trackingId` is whatever `.get("tracking_id")` returns. It is `None` when the
  key is absent or bound to null. Otherwise it is the bound value, which the
  source does not check to be a str. `kind` is the exception class and `msg`
  is its `str()`.
- JSON decoding (`json.loads`, `response.json()`) is a parameter of type
  `Decoder`. It maps a text to a decoded value, or to the text of the decode
  exception.
- The transports are parameters. The HTTP transport is `signed_post` and the
  Lambda transport is `invoke`. Each hands back a response or raises
  (`Delivery`).
- The in-place mutation of the caller's message is modelled by returning the
  message as the call leaves it (`caller`).
- "Validate before send" is stated on a trace of events (`SchemaChecked`,
  `SignedPost`, `LambdaInvoke`). Each event is appended by the step that
  performs it: `Trace.CheckSchema` validates and records the verdict, and
  `Trace.Post` and `Trace.Invoke` are the only places a transport is called,
  recording the call as it is made. An entry point that called a transport
  before the check would produce a trace its contract rejects. Every entry
  point's contract says three things. An invalid message gives the trace
  `[SchemaChecked(false)]` and a ValueError. A valid one gives exactly one
  transport call, after a passed check. `TransportCalls` counts the calls.
- Exception classes are compared the way `isinstance` compares them. A
  proper subclass of RuntimeError (`RecursionError`, raised by `json.loads`
  on very deep nesting, or `NotImplementedError`) counts as a RuntimeError
  in the `except` clause of the ARN path. A decoder reports the class of the
  exception it raises along with its text.

Behaviour of the code worth knowing:

- On the ARN path the payload is decoded (line 69) before the channel status is
  checked (line 72). An undecodable payload with a non-200 channel status
  therefore fails with "Failed to invoke Lambda function: <decode error>". It
  does not fail with the channel status. See `LambdaResult.DecodeBeforeStatusCheck`.
- The code does not classify failures into transport, application and protocol
  errors. On the ARN path every failure after validation is a `RuntimeError`.
  On the URL path, decode errors from `response.json()` and the
  `AttributeError` of `.get` on a non-dict body propagate unwrapped, and so
  does any exception `signed_post` raises.
- A 200 answer without `tracking_id` is a success with `None`, on both paths.

## Model

| member | source | states |
|---|---|---|
| Schema.Validate | clients/kindo_message_python_client/producer.py:32-35 | `None` exactly when the message has the TypedDict shape (`Conforms`). A missing required key is reported whenever there is one, ahead of property errors. A reported missing key is required and absent. A reported mismatch pairs a property with the schema's own rule for it, names the value the message holds for it, and that value breaks the rule. |
| Schema.ValidateReportsFirstMismatch | clients/kindo_message_python_client/producer.py:33-35 | With every required key present, the violation reported is the first property in schema order whose value breaks its rule. |
| Schema.Conforms | clients/kindo_message_python_client/producer.py:9-14 | The TypedDict shape: two str fields, the literal "instant", a dict payload, an optional level "sensitive" or "normal". A conforming message carries every required key. |
| Schema.Describe | clients/kindo_message_python_client/producer.py:34-35 | jsonschema's message for a violation leads with the repr of the missing key, of the offending value, or of the expected constant. |
| Schema.ConformsByRules | clients/kindo_message_python_client/producer.py:9-14 | The TypedDict shape is exactly what the schema's required keys and property rules accept together. |
| Schema.ValidateReportsFirstMissing | clients/kindo_message_python_client/producer.py:33-35 | When required keys are missing, the one named is the first of them in schema order. |
| Schema.UnknownSecurityLevelRejected | clients/kindo_message_python_client/producer.py:14 | A `security_level` other than "sensitive" or "normal" fails validation. |
| Schema.InvalidStructure | clients/kindo_message_python_client/producer.py:35 | The ValueError text starts "Invalid message structure: ". |
| Schema.MissingKeyNamed | clients/kindo_message_python_client/producer.py:34-35 | For a missing key, the text is "Invalid message structure: '<key>' is a required property". |
| Schema.DefaultFill | clients/kindo_message_python_client/producer.py:17-19 | An absent `security_level` becomes "normal" and is appended after the existing bindings. A present one leaves the message identical. Every other key keeps its value. |
| Schema.DefaultFillPreservesConformance | clients/kindo_message_python_client/producer.py:17-19 | Filling the default never changes whether a message is valid: the fill decides only what is sent, never whether it is sent. |
| Schema.DefaultFillIdempotent | clients/kindo_message_python_client/producer.py:18-19 | Filling twice is the same as filling once, so a preset level is never overwritten. |
| JsonValues.Lookup | clients/kindo_message_python_client/producer.py:75-77 | `key in d` fails exactly when no binding has the key; a found value is bound to the key. |
| JsonValues.ReprString | clients/kindo_message_python_client/producer.py:86 | `repr(str)` is the text between matching quotes, single or double. |
| JsonValues.Repr | clients/kindo_message_python_client/producer.py:86 | `repr()` of a value: a str in matching quotes, a list in brackets, a dict in braces, an int that reads back as itself. |
| JsonValues.Str | clients/kindo_message_python_client/producer.py:81 | `str()` of a str is its own text; of an int, text that reads back as that int. |
| JsonValues.Insert | clients/kindo_message_python_client/producer.py:19 | Assigning a new key adds it last, binds it to the value, and leaves every other key's lookup unchanged. |
| JsonValues.LookupFindsFirst | clients/kindo_message_python_client/producer.py:75 | The binding a dict lookup finds is the earliest for its key. |
| ProducerLatest.ValidateMessageWithSchema | clients/kindo_message_python_client/producer.py:16-35 | The caller's message comes back default-filled, even when validation fails. No error means the message conforms. An error is the ValueError text for the reported violation. |
| ProducerLatest.ValidateStep | clients/kindo_message_python_client/producer.py:43 | The call of `validate_message_with_schema` as a step: its result is that function's, and it appends the check's verdict (pass exactly for a conforming message) to the trace without a transport call and without breaking the order. |
| ProducerLatest.SendToProducer | clients/kindo_message_python_client/producer.py:37-48 | The caller's message comes back filled as `validate_message_with_schema` leaves it. Invalid gives the trace `[SchemaChecked(false)]` (no POST) and that ValueError. Valid gives the trace of a passed check followed by exactly one signed POST of the filled message, each event recorded where it happens, with the result mapped by `HttpOutcome`. |
| ProducerLatest.SendToProducerViaArn | clients/kindo_message_python_client/producer.py:51-93 | Invalid gives the trace `[SchemaChecked(false)]` (no invocation) and the ValueError. Valid gives the trace of a passed check followed by exactly one invocation with the filled message, each event recorded where it happens, with the result mapped by `LambdaOutcome`. After validation every failure is a RuntimeError or an instance of one of its subclasses. |
| ProducerPackaged.SendToProducer | clients/python/kindo_message_client/producer.py:17-38 | The inline default-fill is visible to the caller. Invalid gives the trace `[SchemaChecked(false)]` (no POST) and the ValueError for the reported violation. Valid gives the trace of a passed check followed by exactly one signed POST of the filled message, each event recorded where it happens, with the result mapped by `HttpOutcome`. |
| ProducerPackaged.FillInline | clients/python/kindo_message_client/producer.py:24-26 | The inline fill is exactly the current client's default-fill. |
| ProducerLegacy.SendToProducer | clients/python/producer.py:14-31 | The caller's message is unchanged. Invalid gives the trace `[SchemaChecked(false)]` (no POST) and the ValueError. Valid gives the trace of a passed check followed by exactly one POST of exactly the caller's message, each event recorded where it happens, with the result mapped by `HttpOutcome`. |
| HttpResult.HttpOutcome | clients/kindo_message_python_client/producer.py:45-48 | A transport exception propagates unchanged. Success happens exactly when the status is 200 and the body decodes to a dict, and it carries that dict's tracking id. Any other status is a RuntimeError whose status and body text can both be read back from the message. A 200 with a body that decodes goes through `.get`: a dict gives its tracking id, and any other value raises AttributeError "'<type>' object has no attribute 'get'". A 200 with an undecodable body raises what the decoder raised. A RuntimeError arises only from a status other than 200, or from a decoder that raised one itself. |
| HttpResult.MissingTrackingIdIsNone | clients/kindo_message_python_client/producer.py:47 | A 200 answer whose body lacks `tracking_id` returns `None`. |
| Outcomes.TrackingId | clients/kindo_message_python_client/producer.py:84 | `.get("tracking_id")` is `None` exactly when the key is absent or null. Otherwise it is the non-null value the dict lookup finds for the key. |
| Outcomes.TrackingFrom | clients/kindo_message_python_client/producer.py:79 | `.get` on a decoded body succeeds exactly for a dict, giving its tracking id. Any other value raises AttributeError naming its type. |
| Outcomes.FailedToSendCitesStatus | clients/kindo_message_python_client/producer.py:48 | The integer status and the detail text in "Failed to send message: <status> <detail>" read back exactly. |
| Outcomes.ChannelFailed | clients/kindo_message_python_client/producer.py:88 | The text is the prefix followed by `str(code)`, and the status reads back exactly from it. |
| Outcomes.FailedToSend | clients/kindo_message_python_client/producer.py:48 | "Failed to send message: <status> <detail>" starts with its prefix. |
| Outcomes.FailedToSendSplits | clients/kindo_message_python_client/producer.py:48 | A status text without a space splits back out of the message at the first space, together with the detail. |
| Outcomes.IsRuntimeError | clients/kindo_message_python_client/producer.py:91 | `isinstance(e, RuntimeError)`: true for RuntimeError and its subclasses, false for ValueError, KeyError, AttributeError, the JSON decode error and any unrelated class. |
| Outcomes.WrapInvokeError | clients/kindo_message_python_client/producer.py:90-93 | Success passes through. Every failure leaves as a RuntimeError or one of its subclasses. A RuntimeError, or an instance of a subclass, is kept as it is. Anything else becomes a RuntimeError reading "Failed to invoke Lambda function: " followed by its original text. |
| Decimal.IntToDecimal | clients/kindo_message_python_client/producer.py:88 | `str(int)`: non-empty, no space, starts with a digit exactly for a non-negative number, and has no leading zero ("0" is the only text starting with '0', and a minus sign is never followed by '0'). |
| Decimal.ParseIntOfIntToDecimal | clients/kindo_message_python_client/producer.py:88 | Reading back `str(status)` gives the status. |
| Decimal.IntToDecimalInjective | clients/kindo_message_python_client/producer.py:48 | Distinct statuses render to distinct texts. |
| LambdaResult.NormalisePayload | clients/kindo_message_python_client/producer.py:73-86 | Success happens exactly for a flat dict, or for a gateway dict with inner 200 whose body decodes to a dict. A non-dict raises RuntimeError "Unexpected response format: " followed by its `str()`. A flat dict yields its own tracking id. An inner status other than 200 raises a "Failed to send message" RuntimeError. Inner 200 without a body raises KeyError `'body'`. Inner 200 with a body that decodes goes through `.get`: a dict gives its tracking id, and any other value raises AttributeError. An undecodable body raises what the decoder raised. A failure not of RuntimeError's family is only a KeyError, an AttributeError or a body decode error. |
| LambdaResult.DecodeBody | clients/kindo_message_python_client/producer.py:78 | A non-str body is used as it is; only a str body can fail to decode. |
| LambdaResult.RuntimeErrorSubclassReRaised | clients/kindo_message_python_client/producer.py:69 | A decode that raises a RuntimeError subclass (RecursionError on deep nesting) leaves as raised, without the wrapping prefix. |
| LambdaResult.InvokeBody | clients/kindo_message_python_client/producer.py:62-88 | An invoke exception is reported as raised. An undecodable payload raises what the decoder raised. With a decodable payload, a channel status other than 200 is a RuntimeError citing that status, and a status of 200 hands the payload to the normalisation. |
| LambdaResult.LambdaOutcome | clients/kindo_message_python_client/producer.py:61-93 | Every failure is a RuntimeError or one of its subclasses. Success implies channel status 200. An invoke or decode exception of RuntimeError's family leaves as raised. Any other is prefixed "Failed to invoke Lambda function: ". |
| LambdaResult.DecodeBeforeStatusCheck | clients/kindo_message_python_client/producer.py:69-72 | With a non-200 channel status, an undecodable payload (decode error outside RuntimeError's family) gives the wrapped decode error. A decodable one gives the channel status, which reads back from the message. |
| LambdaResult.GatewayBodyDecodedOnce | clients/kindo_message_python_client/producer.py:77-79 | A str gateway body is decoded once. A dict result yields its tracking id. A str result is not decoded again and raises AttributeError. |
| LambdaResult.GatewayDictBodyNotDecoded | clients/kindo_message_python_client/producer.py:78-79 | A gateway body that is already a dict is used as it is, whatever the decoder does, and yields its tracking id. |
| LambdaResult.GatewayErrorCitesStatusAndBody | clients/kindo_message_python_client/producer.py:80-81 | An inner integer status other than 200 fails. The status and `str()` of `.get('body', '')` read back from the message: a str body's own text, the repr of any other body, and the empty text when the body is absent. |
| LambdaResult.NormaliseAgreesWithShape | clients/kindo_message_python_client/producer.py:73-86 | The source's key probing agrees on every payload with a closed sum of the shapes: gateway-wrapped, flat, not a mapping. |
| Trace.AppendInOrder | clients/kindo_message_python_client/producer.py:43-45 | Appending an event keeps "every transport call comes after a passed check" as long as a transport call is appended only once a passed check is on record. |
| Trace.TransportCallsAppend | clients/kindo_message_python_client/producer.py:45 | One more event raises the call count by one exactly when it is a transport call. |
| Trace.CheckSchema | clients/kindo_message_python_client/producer.py:33-35 | The check returns the violation `Validate` reports (none exactly for a conforming message), appends its verdict to the trace, keeps the order and makes no transport call. |
| Trace.Post | clients/kindo_message_python_client/producer.py:45 | The reply is the transport's own for exactly these arguments; one `SignedPost` event is appended as the call is made; the count rises by one; the order holds when a passed check is already on record. |
| Trace.Invoke | clients/kindo_message_python_client/producer.py:62-66 | The reply is the transport's own for exactly these arguments; one `LambdaInvoke` event is appended as the call is made; the count rises by one; the order holds when a passed check is already on record. |
| Scenarios.FixtureConforms | clients/kindo_message_python_client/tests/test_producer.py:10-27 | The tests' fixture is valid without a level, with "sensitive" and with "normal". |
| Scenarios.FixtureGetsNormalLevel | clients/kindo_message_python_client/tests/test_producer.py:37-64 | Validating the fixture appends `security_level: "normal"` and reports no error. |
| Scenarios.SensitiveLevelKept | clients/kindo_message_python_client/tests/test_producer.py:66-93 | A "sensitive" level survives validation unchanged. |
| Scenarios.UnknownLevelRejected | clients/kindo_message_python_client/tests/test_producer.py:95-107 | The level "invalid_value" is rejected. |
| Scenarios.MissingEventTypeNamed | clients/kindo_message_python_client/tests/test_producer.py:29-35 | The fixture without `event_type` is rejected as missing `event_type`. |
| Scenarios.DirectAnswer | clients/kindo_message_python_client/tests/test_producer.py:132-152 | A flat answer returns "test-tracking-123". |
| Scenarios.GatewayAnswer | clients/kindo_message_python_client/tests/test_producer.py:163-187 | A gateway-wrapped answer returns "api-gateway-tracking-456". |
| Scenarios.ChannelFailure | clients/kindo_message_python_client/tests/test_producer.py:190-210 | Channel status 500 gives "Lambda invocation failed with status: 500". |
| Scenarios.GatewayError | clients/kindo_message_python_client/tests/test_producer.py:213-237 | Inner status 400 gives "Failed to send message: 400 <body>". |
| Scenarios.InvokeRaised | clients/kindo_message_python_client/tests/test_producer.py:240-253 | An exception from the invoke call gives "Failed to invoke Lambda function: AWS credentials not found". |

## Left out

- Request signing (`signed_post`, AWS Signature Version 4 through botocore) and the HTTP call. They are a foreign library plus network I/O, so the transport is a parameter that answers or raises.
- Configuration loading (environment variables, `.env`, `ConfigError`) and packaging. These are process-global I/O, outside the dispatch core.
- Loading the schema file: the package-local path, its fallback, and the `open` of the older clients. This is filesystem I/O, and the schema document itself is not part of this model. The schema is fixed from the `ProducerPayload` TypedDict. `behavior` is the constant "instant". `payload` is an object. `security_level` is optional with enumeration ["sensitive", "normal"]. Other keys are allowed. Required keys and properties are in TypedDict order.
- The schema of each client: all three clients are modelled against that one schema. Each client loads its own file through its own `SCHEMA_PATH` (clients/python/config.py:25 for the first client; the packaged clients' config modules are not part of this model), and the first client's `ProducerPayload` declares no `security_level`. If a client's schema file lacks the `security_level` enumeration, that client accepts levels such as "invalid_value" which the model rejects.
- Schema.Validate: only the violation `jsonschema`'s `best_match` reports is modelled: missing required keys first, then the first failing property in schema order. The full error list and the finer relevance ordering are not modelled.
- JSON text parsing and serialisation (`json.loads`, `json.dumps`, `response.json()`, reading the `Payload` stream). These are abstracted into the `Decoder` parameter. The invocation payload is the message itself rather than its JSON text.
- Creating the boto3 Lambda client (line 59, outside the `try`): it is modelled as always succeeding, so its exceptions are not modelled.
- JSON numbers other than integers, and Python's `==` between ints, floats and bools. An inner `statusCode` of `200.0` is not modelled.
- JsonValues.Repr: `repr` escapes only backslash, the quote, `\n`, `\r` and `\t`. Python's `\x`/`\u` escapes for other non-printable characters are not modelled.
- The test harness mechanics (mocks, fixtures, integration tests against a live endpoint). Their assertions are restated in `Scenarios`.

=== FILE: decimal.dfy ===
/**
 * Decimal rendering of integers, as Python's `str(int)` produces it, and the
 * reading back of such a rendering. Status codes are cited in error messages
 * through this rendering, so its round trip is what makes a cited status
 * recoverable from the message text.
 */
module Decimal {
  import opened Wrappers

  predicate IsDigit(c: char) {
    '0' <= c <= '9'
  }

  predicate AllDigits(s: string) {
    forall i :: 0 <= i < |s| ==> IsDigit(s[i])
  }

  function DigitValue(c: char): (d: nat)
    requires IsDigit(c)
    ensures d < 10
  {
    c as int - '0' as int
  }

  function DigitChar(d: nat): (c: char)
    requires d < 10
    ensures IsDigit(c) && DigitValue(c) == d
  {
    ('0' as int + d) as char
  }

  /** The digits of `n`, most significant first, without a leading zero. */
  function NatToDecimal(n: nat): (s: string)
    ensures |s| >= 1 && AllDigits(s)
    ensures s[0] == '0' ==> n == 0
    decreases n
  {
    if n < 10 then [DigitChar(n)] else NatToDecimal(n / 10) + [DigitChar(n % 10)]
  }

  /** The number a digit string denotes, most significant digit first. */
  function DecimalValue(s: string): nat
    requires AllDigits(s)
    decreases |s|
  {
    if |s| == 0 then 0 else 10 * DecimalValue(s[..|s| - 1]) + DigitValue(s[|s| - 1])
  }

  lemma {:induction false} DecimalValueOfNatToDecimal(n: nat)
    ensures DecimalValue(NatToDecimal(n)) == n
    decreases n
  {
    if n >= 10 {
      DecimalValueOfNatToDecimal(n / 10);
      var s := NatToDecimal(n);
      assert s[..|s| - 1] == NatToDecimal(n / 10);
    }
  }

  /** Python's `str(i)` for an int: a minus sign for negatives, then the digits. */
  function IntToDecimal(i: int): (s: string)
    ensures |s| >= 1
    ensures ' ' !in s
    ensures i >= 0 <==> IsDigit(s[0])
    ensures s[0] == '0' ==> s == "0"
    ensures i < 0 ==> |s| >= 2 && s[1] != '0'
  {
    if i < 0 then "-" + NatToDecimal(-i) else NatToDecimal(i)
  }

  /** Reads an optionally negative decimal integer; `None` for anything else. */
  function ParseInt(s: string): Option<int> {
    if |s| >= 2 && s[0] == '-' && AllDigits(s[1..]) then Some(-(DecimalValue(s[1..]) as int))
    else if |s| >= 1 && AllDigits(s) then Some(DecimalValue(s))
    else None
  }

  /** Reading back what `IntToDecimal` wrote gives the integer again. */
  lemma ParseIntOfIntToDecimal(i: int)
    ensures ParseInt(IntToDecimal(i)) == Some(i)
  {
    var s := IntToDecimal(i);
    if i < 0 {
      assert s == "-" + NatToDecimal(-i);
      assert s[1..] == NatToDecimal(-i);
      assert |s| >= 2 && s[0] == '-' && AllDigits(s[1..]);
      DecimalValueOfNatToDecimal(-i);
      assert ParseInt(s) == Some(-(DecimalValue(s[1..]) as int));
    } else {
      assert s == NatToDecimal(i);
      assert s[0] != '-';
      DecimalValueOfNatToDecimal(i);
      assert ParseInt(s) == Some(DecimalValue(s));
    }
  }

  /** Distinct integers never render to the same text. */
  lemma IntToDecimalInjective(i: int, j: int)
    requires IntToDecimal(i) == IntToDecimal(j)
    ensures i == j
  {
    ParseIntOfIntToDecimal(i);
    ParseIntOfIntToDecimal(j);
  }
}

=== FILE: http.dfy ===
/**
 * The signed-HTTPS transport as the producer sees it: `signed_post` hands
 * back a response (status code and body text) or raises, and the producer
 * maps the response to a tracking id or a RuntimeError.
 */
module HttpResult {
  import opened Wrappers
  import opened Decimal
  import opened JsonValues
  import opened Outcomes
  import opened Schema

  /** The parts of a `requests.Response` the producer reads. */
  datatype HttpResponse = HttpResponse(statusCode: int, text: string)

  /**
   * `signed_post(url, payload, region, service)`: signs the JSON encoding of
   * the message and posts it, handing back the response or raising.
   */
  type HttpTransport = (string, Message, string, string) -> Delivery<HttpResponse>

  /**
   * What `send_to_producer` makes of the transport's reply. Exceptions from
   * the transport, from `response.json()` and from `.get` on a non-dict body
   * propagate as they are; a 200 yields the body's tracking id; any other
   * status raises a RuntimeError citing the status and the body text.
   */
  function HttpOutcome(reply: Delivery<HttpResponse>, parse: Decoder): (r: Outcome)
    ensures reply.Raised? ==> r == Failure(reply.kind, reply.msg)
    ensures r.Success? <==>
              && reply.Delivered? && reply.response.statusCode == 200
              && parse(reply.response.text).Parsed? && parse(reply.response.text).value.JObject?
    ensures r.Success? ==> r.trackingId == TrackingId(parse(reply.response.text).value.fields)
    ensures reply.Delivered? && reply.response.statusCode == 200 && parse(reply.response.text).Parsed? ==>
              r == TrackingFrom(parse(reply.response.text).value)
    ensures reply.Delivered? && reply.response.statusCode != 200 ==>
              && r.Failure? && r.kind == RuntimeError
              && ReadFailedToSend(r.msg) == Some((reply.response.statusCode, reply.response.text))
    ensures reply.Delivered? && reply.response.statusCode == 200 && parse(reply.response.text).Malformed? ==>
              r == Failure(parse(reply.response.text).kind, parse(reply.response.text).reason)
    ensures reply.Delivered? && r.Failure? && r.kind == RuntimeError ==>
              reply.response.statusCode != 200 || parse(reply.response.text) == Malformed(RuntimeError, r.msg)
  {
    match reply
    case Raised(kind, msg) => Failure(kind, msg)
    case Delivered(HttpResponse(status, text)) =>
      if status == 200 then
        match parse(text)
        case Malformed(kind, reason) => Failure(kind, reason)
        case Parsed(body) => TrackingFrom(body)
      else
        FailedToSendCitesStatus(status, text);
        Failure(RuntimeError, FailedToSend(IntToDecimal(status), text))
  }

  /** A 200 whose body lacks `tracking_id` returns `None` rather than failing. */
  lemma MissingTrackingIdIsNone(text: string, fields: Dict, parse: Decoder)
    requires parse(text) == Parsed(JObject(fields))
    requires !Has(fields, TrackingKey)
    ensures HttpOutcome(Delivered(HttpResponse(200, text)), parse) == Success(None)
  {
  }
}

=== FILE: json.dfy ===
/**
 * JSON-like values as Python holds them after `json.loads`, and the few
 * operations on them the producer relies on: dictionary lookup and `.get`,
 * key insertion, and `str()` / `repr()` rendering for error messages.
 */
module JsonValues {
  import opened Wrappers
  import opened Decimal

  /** A decoded JSON value. JNull is Python's `None`; only integral numbers are modelled. */
  datatype Json =
    | JNull
    | JBool(b: bool)
    | JInt(i: int)
    | JStr(s: string)
    | JArray(items: seq<Json>)
    | JObject(fields: Dict)

  /**
   * A Python dict, as its bindings in insertion order. Python dict keys are
   * distinct; on a sequence that repeats a key, lookup finds the earliest binding.
   */
  type Dict = seq<(string, Json)>

  /** `d[key]` when `key in d`, `None` otherwise. */
  function Lookup(d: Dict, key: string): (r: Option<Json>)
    ensures r.None? <==> forall i :: 0 <= i < |d| ==> d[i].0 != key
    ensures r.Some? ==> (key, r.value) in d
  {
    if |d| == 0 then None
    else if d[0].0 == key then Some(d[0].1)
    else Lookup(d[1..], key)
  }

  /** The binding found is the earliest one for the key. */
  lemma {:induction false} LookupFindsFirst(d: Dict, key: string, i: nat)
    requires i < |d| && d[i].0 == key
    requires forall j :: 0 <= j < i ==> d[j].0 != key
    ensures Lookup(d, key) == Some(d[i].1)
    decreases i
  {
    if i > 0 {
      LookupFindsFirst(d[1..], key, i - 1);
    }
  }

  /** `key in d`. */
  predicate Has(d: Dict, key: string) {
    Lookup(d, key).Some?
  }

  /** `d.get(key, default)`. */
  function GetOr(d: Dict, key: string, default: Json): Json {
    Lookup(d, key).GetOr(default)
  }

  /** `d[key] = value` for a key not yet in `d`: the binding goes last. */
  function Insert(d: Dict, key: string, value: Json): (r: Dict)
    requires !Has(d, key)
    ensures |r| == |d| + 1 && r[..|d|] == d
    ensures Lookup(r, key) == Some(value)
    ensures forall k :: k != key ==> Lookup(r, k) == Lookup(d, k)
  {
    LookupAppend(d, key, value);
    d + [(key, value)]
  }

  lemma {:induction false} LookupAppend(d: Dict, key: string, value: Json)
    requires !Has(d, key)
    ensures Lookup(d + [(key, value)], key) == Some(value)
    ensures forall k :: k != key ==> Lookup(d + [(key, value)], k) == Lookup(d, k)
    decreases |d|
  {
    if |d| > 0 {
      assert (d + [(key, value)])[1..] == d[1..] + [(key, value)];
      LookupAppend(d[1..], key, value);
    }
  }

  /** Python's `type(v).__name__` for a decoded value. */
  function TypeName(v: Json): string {
    match v
    case JNull => "NoneType"
    case JBool(_) => "bool"
    case JInt(_) => "int"
    case JStr(_) => "str"
    case JArray(_) => "list"
    case JObject(_) => "dict"
  }

  /** One character of a string literal as `repr` writes it, given the chosen quote. */
  function EscapeChar(c: char, quote: char): string {
    if c == '\\' || c == quote then ['\\', c]
    else if c == '\n' then "\\n"
    else if c == '\r' then "\\r"
    else if c == '\t' then "\\t"
    else [c]
  }

  function EscapeString(s: string, quote: char): string {
    if |s| == 0 then "" else EscapeChar(s[0], quote) + EscapeString(s[1..], quote)
  }

  /** Text without backslashes, quotes or line breaks is written as it is. */
  lemma {:induction false} EscapePlain(s: string, quote: char)
    requires forall i :: 0 <= i < |s| ==> s[i] !in ['\\', quote, '\n', '\r', '\t']
    ensures EscapeString(s, quote) == s
  {
    if |s| > 0 {
      EscapePlain(s[1..], quote);
    }
  }

  /** `repr()` of a str: single quotes, unless the text holds a single quote and no double quote. */
  function ReprString(s: string): (r: string)
    ensures |r| >= 2 && r[0] == r[|r| - 1] && r[0] in "'\""
  {
    var quote := if '\'' in s && '"' !in s then '"' else '\'';
    [quote] + EscapeString(s, quote) + [quote]
  }

  /** A str without backslashes, single quotes or line breaks is shown in single quotes as it is. */
  lemma ReprPlain(s: string)
    requires forall i :: 0 <= i < |s| ==> s[i] !in ['\\', '\'', '\n', '\r', '\t']
    ensures ReprString(s) == "'" + s + "'"
  {
    EscapePlain(s, '\'');
  }

  /** `sep.join(parts)`. */
  function Join(parts: seq<string>, sep: string): string {
    if |parts| == 0 then ""
    else if |parts| == 1 then parts[0]
    else parts[0] + sep + Join(parts[1..], sep)
  }

  /** `repr()` of a decoded value, e.g. `{'statusCode': 400, 'body': [1, None]}`. */
  function Repr(j: Json): (r: string)
    ensures |r| >= 1
    ensures j.JStr? ==> r[0] == r[|r| - 1] && r[0] in "'\""
    ensures j.JArray? ==> r[0] == '[' && r[|r| - 1] == ']'
    ensures j.JObject? ==> r[0] == '{' && r[|r| - 1] == '}'
    ensures j.JInt? ==> ParseInt(r) == Some(j.i)
    decreases j
  {
    match j
    case JNull => "None"
    case JBool(b) => if b then "True" else "False"
    case JInt(i) => ParseIntOfIntToDecimal(i); IntToDecimal(i)
    case JStr(s) => ReprString(s)
    case JArray(items) =>
      "[" + Join(seq(|items|, k requires 0 <= k < |items| => Repr(items[k])), ", ") + "]"
    case JObject(fields) =>
      "{" + Join(seq(|fields|, k requires 0 <= k < |fields| =>
                   ReprString(fields[k].0) + ": " + Repr(fields[k].1)), ", ") + "}"
  }

  /** `str()` of a decoded value: a str is its own text, anything else is its repr. */
  function Str(j: Json): (r: string)
    ensures j.JStr? ==> r == j.s
    ensures j.JInt? ==> ParseInt(r) == Some(j.i)
  {
    if j.JStr? then j.s else Repr(j)
  }
}

=== FILE: lambda.dfy ===
/**
 * The direct-invocation transport: the Lambda `invoke` call hands back a
 * channel status and the raw payload, or raises; the producer decodes the
 * payload and normalises the two envelope shapes a function may answer
 * with (gateway-wrapped or flat) into a tracking id or a RuntimeError.
 */
module LambdaResult {
  import opened Wrappers
  import opened Decimal
  import opened JsonValues
  import opened Outcomes
  import opened Schema

  /** The parts of the `invoke` response the producer reads: `StatusCode` and `Payload.read()`. */
  datatype InvokeResponse = InvokeResponse(statusCode: int, payload: string)

  /**
   * `invoke(FunctionName=arn, InvocationType='RequestResponse', Payload=json.dumps(message))`
   * on a client for `region`: the response, or the exception the call raised.
   */
  type LambdaTransport = (string, Message, string) -> Delivery<InvokeResponse>

  const InnerStatusKey: string := "statusCode"
  const BodyKey: string := "body"
  const UnexpectedFormatPrefix: string := "Unexpected response format: "

  /**
   * The gateway body: decoded once more when it is a str, taken as it is
   * otherwise; only a str body can fail to decode.
   */
  function DecodeBody(body: Json, parse: Decoder): (r: Decoded)
    ensures r.Malformed? ==> body.JStr?
    ensures !body.JStr? ==> r == Parsed(body)
  {
    if body.JStr? then parse(body.s) else Parsed(body)
  }

  /** The body of a gateway answer with inner status 200 fails to decode. */
  predicate BodyUndecodable(fields: Dict, parse: Decoder) {
    Has(fields, BodyKey) && DecodeBody(Lookup(fields, BodyKey).value, parse).Malformed?
  }

  /**
   * The decision on a decoded payload once the channel reported 200. A dict
   * with an inner `statusCode` is gateway-wrapped: inner 200 reads the
   * tracking id out of its body, any other inner status is a RuntimeError
   * citing that status and the body. A dict without it is flat and yields
   * its own tracking id. Anything else is an unexpected format.
   */
  function NormalisePayload(p: Json, parse: Decoder): (r: Outcome)
    ensures r.Success? <==>
              || (p.JObject? && !Has(p.fields, InnerStatusKey))
              || (&& p.JObject? && Lookup(p.fields, InnerStatusKey) == Some(JInt(200))
                  && Has(p.fields, BodyKey)
                  && DecodeBody(Lookup(p.fields, BodyKey).value, parse).Parsed?
                  && DecodeBody(Lookup(p.fields, BodyKey).value, parse).value.JObject?)
    ensures !p.JObject? ==> r == Failure(RuntimeError, UnexpectedFormatPrefix + Str(p))
    ensures p.JObject? && !Has(p.fields, InnerStatusKey) ==> r == Success(TrackingId(p.fields))
    ensures p.JObject? && Has(p.fields, InnerStatusKey) && Lookup(p.fields, InnerStatusKey) != Some(JInt(200)) ==>
              r.Failure? && r.kind == RuntimeError && FailedToSendPrefix <= r.msg
    ensures p.JObject? && Lookup(p.fields, InnerStatusKey) == Some(JInt(200)) && !Has(p.fields, BodyKey) ==>
              r == Failure(KeyError, ReprString(BodyKey))
    ensures && p.JObject? && Lookup(p.fields, InnerStatusKey) == Some(JInt(200)) && Has(p.fields, BodyKey)
            && DecodeBody(Lookup(p.fields, BodyKey).value, parse).Parsed? ==>
              r == TrackingFrom(DecodeBody(Lookup(p.fields, BodyKey).value, parse).value)
    ensures p.JObject? && Lookup(p.fields, InnerStatusKey) == Some(JInt(200)) && BodyUndecodable(p.fields, parse) ==>
              var d := DecodeBody(Lookup(p.fields, BodyKey).value, parse);
              r == Failure(d.kind, d.reason)
    ensures r.Failure? && !IsRuntimeError(r.kind) ==>
              r.kind in {KeyError, AttributeError} || (p.JObject? && BodyUndecodable(p.fields, parse))
  {
    if !p.JObject? then Failure(RuntimeError, UnexpectedFormatPrefix + Str(p))
    else
      var fields := p.fields;
      match Lookup(fields, InnerStatusKey)
      case None => Success(TrackingId(fields))
      case Some(inner) =>
        if inner != JInt(200) then
          Failure(RuntimeError, FailedToSend(Str(inner), Str(GetOr(fields, BodyKey, JStr("")))))
        else
          match Lookup(fields, BodyKey)
          case None => Failure(KeyError, ReprString(BodyKey))
          case Some(body) =>
            match DecodeBody(body, parse)
            case Malformed(kind, reason) => Failure(kind, reason)
            case Parsed(decoded) => TrackingFrom(decoded)
  }

  /**
   * The body of the `try`: the invoke call, then decoding the payload, and
   * only then the channel status check.
   */
  function InvokeBody(reply: Delivery<InvokeResponse>, parse: Decoder): (r: Outcome)
    ensures reply.Raised? ==> r == Failure(reply.kind, reply.msg)
    ensures reply.Delivered? && parse(reply.response.payload).Malformed? ==>
              r == Failure(parse(reply.response.payload).kind, parse(reply.response.payload).reason)
    ensures reply.Delivered? && parse(reply.response.payload).Parsed? && reply.response.statusCode != 200 ==>
              && r.Failure? && r.kind == RuntimeError
              && ReadChannelFailed(r.msg) == Some(reply.response.statusCode)
    ensures reply.Delivered? && parse(reply.response.payload).Parsed? && reply.response.statusCode == 200 ==>
              r == NormalisePayload(parse(reply.response.payload).value, parse)
  {
    match reply
    case Raised(kind, msg) => Failure(kind, msg)
    case Delivered(InvokeResponse(status, raw)) =>
      match parse(raw)
      case Malformed(kind, reason) => Failure(kind, reason)
      case Parsed(payload) =>
        if status == 200 then NormalisePayload(payload, parse)
        else Failure(RuntimeError, ChannelFailed(status))
  }

  /**
   * The whole `try`/`except` around the invocation: every failure reaches
   * the caller as a RuntimeError; one raised inside (or an instance of a
   * subclass) leaves unchanged, anything else is prefixed "Failed to invoke
   * Lambda function: ".
   */
  function LambdaOutcome(reply: Delivery<InvokeResponse>, parse: Decoder): (r: Outcome)
    ensures r.Failure? ==> IsRuntimeError(r.kind)
    ensures r.Success? ==> reply.Delivered? && reply.response.statusCode == 200
    ensures reply.Raised? && IsRuntimeError(reply.kind) ==> r == Failure(reply.kind, reply.msg)
    ensures reply.Raised? && !IsRuntimeError(reply.kind) ==> r == Failure(RuntimeError, InvokeFailedPrefix + reply.msg)
    ensures reply.Delivered? && parse(reply.response.payload).Malformed? ==>
              var d := parse(reply.response.payload);
              r == if IsRuntimeError(d.kind) then Failure(d.kind, d.reason)
                   else Failure(RuntimeError, InvokeFailedPrefix + d.reason)
  {
    WrapInvokeError(InvokeBody(reply, parse))
  }

  /**
   * The payload is decoded before the channel status is looked at: an
   * undecodable payload reports the decode error even when the channel
   * status is not 200, and a decodable one reports the channel status.
   */
  lemma DecodeBeforeStatusCheck(status: int, raw: string, parse: Decoder)
    requires status != 200
    ensures parse(raw).Malformed? && !IsRuntimeError(parse(raw).kind) ==>
              LambdaOutcome(Delivered(InvokeResponse(status, raw)), parse)
                == Failure(RuntimeError, InvokeFailedPrefix + parse(raw).reason)
    ensures parse(raw).Parsed? ==>
              ReadChannelFailed(LambdaOutcome(Delivered(InvokeResponse(status, raw)), parse).msg) == Some(status)
  {
  }

  /** A str gateway body is decoded exactly once: a body that decodes to a str again is not decoded further. */
  lemma GatewayBodyDecodedOnce(fields: Dict, text: string, parse: Decoder)
    requires Lookup(fields, InnerStatusKey) == Some(JInt(200))
    requires Lookup(fields, BodyKey) == Some(JStr(text))
    ensures parse(text).Parsed? && parse(text).value.JObject? ==>
              NormalisePayload(JObject(fields), parse) == Success(TrackingId(parse(text).value.fields))
    ensures parse(text).Parsed? && parse(text).value.JStr? ==>
              NormalisePayload(JObject(fields), parse) == Failure(AttributeError, NoGetAttribute(parse(text).value))
  {
  }

  /** A gateway body that is already a dict is used as it is, whatever the decoder would make of text. */
  lemma GatewayDictBodyNotDecoded(fields: Dict, body: Dict, parse1: Decoder, parse2: Decoder)
    requires Lookup(fields, InnerStatusKey) == Some(JInt(200))
    requires Lookup(fields, BodyKey) == Some(JObject(body))
    ensures NormalisePayload(JObject(fields), parse1) == NormalisePayload(JObject(fields), parse2)
                                                      == Success(TrackingId(body))
  {
  }

  /**
   * A gateway answer with an integer inner status other than 200 fails
   * citing that status and `str()` of `.get('body', '')`: the body's own
   * text for a str, its repr for any other value, nothing when it is absent.
   * Both read back from the message.
   */
  lemma GatewayErrorCitesStatusAndBody(fields: Dict, code: int, parse: Decoder)
    requires code != 200
    requires Lookup(fields, InnerStatusKey) == Some(JInt(code))
    ensures NormalisePayload(JObject(fields), parse).Failure?
    ensures ReadFailedToSend(NormalisePayload(JObject(fields), parse).msg)
              == Some((code, Str(GetOr(fields, BodyKey, JStr("")))))
    ensures !Has(fields, BodyKey) ==>
              ReadFailedToSend(NormalisePayload(JObject(fields), parse).msg) == Some((code, ""))
  {
    assert Str(JInt(code)) == IntToDecimal(code);
    FailedToSendCitesStatus(code, Str(GetOr(fields, BodyKey, JStr(""))));
  }

  /**
   * A decode that raises a subclass of RuntimeError (`RecursionError` on a
   * deeply nested payload) leaves as it was raised, without the "Failed to
   * invoke Lambda function" prefix, whatever the channel status.
   */
  lemma RuntimeErrorSubclassReRaised(status: int, raw: string, parse: Decoder, name: string, text: string)
    requires parse(raw) == Malformed(RuntimeErrorSubclass(name), text)
    ensures LambdaOutcome(Delivered(InvokeResponse(status, raw)), parse)
              == Failure(RuntimeErrorSubclass(name), text)
  {
  }

  /** The two payload shapes and the leftover case, as a closed sum. */
  datatype Shape =
    | GatewayWrapped(innerStatus: Json, body: Option<Json>, fields: Dict)
    | Flat(fields: Dict)
    | NotAMapping(value: Json)

  function Classify(p: Json): Shape {
    if !p.JObject? then NotAMapping(p)
    else match Lookup(p.fields, InnerStatusKey)
      case Some(inner) => GatewayWrapped(inner, Lookup(p.fields, BodyKey), p.fields)
      case None => Flat(p.fields)
  }

  /** The normalisation stated shape by shape, as a reference for the nested tests of the source. */
  function NormaliseShape(shape: Shape, parse: Decoder): Outcome {
    match shape
    case NotAMapping(v) => Failure(RuntimeError, UnexpectedFormatPrefix + Str(v))
    case Flat(fields) => Success(TrackingId(fields))
    case GatewayWrapped(JInt(200), None, _) => Failure(KeyError, ReprString(BodyKey))
    case GatewayWrapped(JInt(200), Some(body), _) =>
      (match DecodeBody(body, parse)
       case Malformed(kind, reason) => Failure(kind, reason)
       case Parsed(decoded) => TrackingFrom(decoded))
    case GatewayWrapped(inner, body, _) =>
      Failure(RuntimeError, FailedToSend(Str(inner), Str(body.GetOr(JStr("")))))
  }

  /** The source's key probing and the closed-sum reading agree on every payload. */
  lemma NormaliseAgreesWithShape(p: Json, parse: Decoder)
    ensures NormalisePayload(p, parse) == NormaliseShape(Classify(p), parse)
  {
  }
}

=== FILE: outcomes.dfy ===
/**
 * What crosses back to the caller of the producer: a tracking id or a Python
 * exception (its class and its `str()`), together with the error texts the
 * producer builds and the rules it applies to exceptions.
 */
module Outcomes {
  import opened Wrappers
  import opened Decimal
  import opened JsonValues

  /**
   * The exception classes the producer raises or lets through.
   * `RuntimeErrorSubclass` stands for a proper subclass of RuntimeError
   * (`RecursionError`, `NotImplementedError`, …): `isinstance(e, RuntimeError)`
   * holds for it as for RuntimeError itself. `OtherError` names only
   * classes outside RuntimeError's family.
   */
  datatype ErrorKind =
    | ValueError
    | RuntimeError
    | RuntimeErrorSubclass(subclass: string)
    | KeyError
    | AttributeError
    | JsonDecodeError
    | OtherError(name: string)

  /** `isinstance(e, RuntimeError)` for an exception of class `k`. */
  predicate IsRuntimeError(k: ErrorKind)
    ensures k.RuntimeError? || k.RuntimeErrorSubclass? ==> IsRuntimeError(k)
    ensures k.ValueError? || k.KeyError? || k.AttributeError? || k.JsonDecodeError? || k.OtherError? ==>
              !IsRuntimeError(k)
  {
    k.RuntimeError? || k.RuntimeErrorSubclass?
  }

  /**
   * The result of an entry point: the value it returns (Python `None` as
   * `None`) or the exception it raises.
   */
  datatype Outcome = Success(trackingId: Option<Json>) | Failure(kind: ErrorKind, msg: string)

  /** What a transport call did: handed back a response, or raised. */
  datatype Delivery<R> = Delivered(response: R) | Raised(kind: ErrorKind, msg: string)

  /**
   * What a JSON decoder (`json.loads`, `response.json()`) makes of a text:
   * a value, or the class and text of the exception it raises (usually a
   * JSONDecodeError, a RecursionError on very deep nesting).
   */
  datatype Decoded = Parsed(value: Json) | Malformed(kind: ErrorKind, reason: string)

  /** A JSON decoder. */
  type Decoder = string -> Decoded

  const TrackingKey: string := "tracking_id"

  /**
   * `d.get("tracking_id")`: Python `None` both when the key is absent and
   * when it is bound to null, the bound value otherwise.
   */
  function TrackingId(d: Dict): (r: Option<Json>)
    ensures r.None? <==> Lookup(d, TrackingKey) in {None, Some(JNull)}
    ensures r.Some? ==> Lookup(d, TrackingKey) == Some(r.value) && r.value != JNull
  {
    match Lookup(d, TrackingKey)
    case None => None
    case Some(v) => if v == JNull then None else Some(v)
  }

  /** The text of the AttributeError raised by `v.get(...)` when `v` is not a dict. */
  function NoGetAttribute(v: Json): string {
    "'" + TypeName(v) + "' object has no attribute 'get'"
  }

  /**
   * `v.get("tracking_id")` on a decoded response: a dict yields its tracking
   * id, any other value raises AttributeError.
   */
  function TrackingFrom(v: Json): (r: Outcome)
    ensures r.Success? <==> v.JObject?
    ensures r.Success? ==> r.trackingId == TrackingId(v.fields)
    ensures r.Failure? ==> r.kind == AttributeError && r.msg == NoGetAttribute(v)
  {
    if v.JObject? then Success(TrackingId(v.fields))
    else Failure(AttributeError, NoGetAttribute(v))
  }

  const FailedToSendPrefix: string := "Failed to send message: "

  /** "Failed to send message: <status> <detail>". */
  function FailedToSend(status: string, detail: string): (msg: string)
    ensures FailedToSendPrefix <= msg
  {
    FailedToSendPrefix + status + " " + detail
  }

  /** A status text without a space splits back out of the message, and so does the detail. */
  lemma FailedToSendSplits(status: string, detail: string)
    requires ' ' !in status
    ensures SplitFailedToSend(FailedToSend(status, detail)) == Some((status, detail))
  {
    var rest := FailedToSend(status, detail)[|FailedToSendPrefix|..];
    assert rest[|status|] == ' ';
    assert rest[..|status|] == status;
    assert rest[|status| + 1..] == detail;
    assert IndexOf(rest, ' ') == Some(|status|);
  }

  /** Position of the first `c` in `s`. */
  function IndexOf(s: string, c: char): (r: Option<nat>)
    ensures r.Some? ==> r.value < |s| && s[r.value] == c && c !in s[..r.value]
    ensures r.None? ==> c !in s
  {
    if |s| == 0 then None
    else if s[0] == c then Some(0)
    else match IndexOf(s[1..], c)
      case None => None
      case Some(k) =>
        assert s[..k + 1] == [s[0]] + s[1..][..k];
        Some(k + 1)
  }

  /** Splits a "Failed to send message" text at the first space after the prefix. */
  function SplitFailedToSend(msg: string): Option<(string, string)> {
    if FailedToSendPrefix <= msg then
      var rest := msg[|FailedToSendPrefix|..];
      match IndexOf(rest, ' ')
      case None => None
      case Some(k) => Some((rest[..k], rest[k + 1..]))
    else None
  }

  /** Reads the status and the detail back out of a "Failed to send message" text. */
  function ReadFailedToSend(msg: string): Option<(int, string)> {
    match SplitFailedToSend(msg)
    case None => None
    case Some((status, detail)) =>
      match ParseInt(status)
      case None => None
      case Some(code) => Some((code, detail))
  }

  /**
   * A "Failed to send message" text cites its integer status and its detail
   * so that both can be read back exactly.
   */
  lemma FailedToSendCitesStatus(code: int, detail: string)
    ensures ReadFailedToSend(FailedToSend(IntToDecimal(code), detail)) == Some((code, detail))
  {
    FailedToSendSplits(IntToDecimal(code), detail);
    ParseIntOfIntToDecimal(code);
  }

  const ChannelFailedPrefix: string := "Lambda invocation failed with status: "

  /** "Lambda invocation failed with status: <code>"; the status reads back out of it. */
  function ChannelFailed(code: int): (msg: string)
    ensures ChannelFailedPrefix <= msg && msg[|ChannelFailedPrefix|..] == IntToDecimal(code)
    ensures ReadChannelFailed(msg) == Some(code)
  {
    var text := ChannelFailedPrefix + IntToDecimal(code);
    assert text[|ChannelFailedPrefix|..] == IntToDecimal(code);
    ParseIntOfIntToDecimal(code);
    text
  }

  /** Reads the channel status back out of a "Lambda invocation failed" text. */
  function ReadChannelFailed(msg: string): Option<int> {
    if ChannelFailedPrefix <= msg then ParseInt(msg[|ChannelFailedPrefix|..]) else None
  }

  const InvokeFailedPrefix: string := "Failed to invoke Lambda function: "

  /**
   * The `except` clause around the Lambda call: a RuntimeError, or an
   * instance of a subclass of it, is re-raised as it is; any other exception becomes a RuntimeError whose text is
   * "Failed to invoke Lambda function: " followed by `str()` of the original.
   */
  function WrapInvokeError(o: Outcome): (r: Outcome)
    ensures r.Success? <==> o.Success?
    ensures r.Success? ==> r == o
    ensures r.Failure? ==> IsRuntimeError(r.kind)
    ensures o.Failure? && IsRuntimeError(o.kind) ==> r == o
    ensures o.Failure? && !IsRuntimeError(o.kind) ==>
              && r.kind == RuntimeError
              && InvokeFailedPrefix <= r.msg && r.msg[|InvokeFailedPrefix|..] == o.msg
  {
    match o
    case Success(_) => o
    case Failure(kind, msg) =>
      if IsRuntimeError(kind) then o else Failure(RuntimeError, InvokeFailedPrefix + msg)
  }
}

=== FILE: producer_latest.dfy ===
/**
 * The current producer client (clients/kindo_message_python_client/producer.py):
 * validation with default-filling, and the two entry points, by URL over
 * signed HTTPS and by function ARN over direct Lambda invocation.
 */
module ProducerLatest {
  import opened Wrappers
  import opened JsonValues
  import opened Outcomes
  import opened Schema
  import opened HttpResult
  import opened LambdaResult
  import opened Trace

  /** The caller's message after validation, and the ValueError text when it is rejected. */
  datatype Checked = Checked(message: Message, error: Option<string>)

  /**
   * `validate_message_with_schema`: fills the default security level into
   * the caller's message (the change stays even when validation then
   * fails), then validates against the schema.
   */
  function ValidateMessageWithSchema(m: Message): (r: Checked)
    ensures r.message == DefaultFill(m)
    ensures r.error.None? <==> Conforms(m)
    ensures r.error.Some? ==> r.error.value == InvalidStructure(Validate(r.message).value)
  {
    var filled := DefaultFill(m);
    DefaultFillPreservesConformance(m);
    match Validate(filled)
    case None => Checked(filled, None)
    case Some(v) => Checked(filled, Some(InvalidStructure(v)))
  }

  /**
   * The call of `validate_message_with_schema` as a step of an entry point:
   * the fill and the check, recorded where they happen.
   */
  method ValidateStep(message: Message, t: seq<Event>) returns (checked: Checked, t': seq<Event>)
    ensures checked == ValidateMessageWithSchema(message)
    ensures t' == t + [SchemaChecked(Conforms(message))]
    ensures ValidatedBeforeTransport(t) ==> ValidatedBeforeTransport(t')
    ensures TransportCalls(t') == TransportCalls(t)
  {
    var filled := DefaultFill(message);
    DefaultFillPreservesConformance(message);
    var violation;
    violation, t' := CheckSchema(filled, t);
    checked := Checked(filled, if violation.None? then None else Some(InvalidStructure(violation.value)));
  }

  /**
   * `send_to_producer(url, message, region, service)`: validate, then one
   * signed POST of the filled message, then map the response. Returns the
   * outcome, the caller's message as the call leaves it, and the trace of
   * the steps taken.
   */
  method SendToProducer(url: string, message: Message, region: string, service: string,
                        post: HttpTransport, parse: Decoder)
    returns (result: Outcome, caller: Message, trace: seq<Event>)
    ensures caller == ValidateMessageWithSchema(message).message
    ensures ValidatedBeforeTransport(trace)
    ensures TransportCalls(trace) == (if Conforms(message) then 1 else 0)
    ensures !Conforms(message) ==>
              && trace == [SchemaChecked(false)]
              && result == Failure(ValueError, ValidateMessageWithSchema(message).error.value)
    ensures Conforms(message) ==>
              && trace == [SchemaChecked(true), SignedPost(url, caller, region, service)]
              && result == HttpOutcome(post(url, caller, region, service), parse)
  {
    var checked;
    checked, trace := ValidateStep(message, []);
    caller := checked.message;
    if checked.error.Some? {
      result := Failure(ValueError, checked.error.value);
      return;
    }
    assert trace == [SchemaChecked(true)];
    var reply;
    reply, trace := Post(post, url, caller, region, service, trace);
    result := HttpOutcome(reply, parse);
  }

  /**
   * `send_to_producer_via_arn(arn, message, region)`: validate, then one
   * synchronous invocation with the filled message, then normalise the
   * response; past validation every failure is a RuntimeError or an
   * instance of a subclass of it.
   */
  method SendToProducerViaArn(arn: string, message: Message, region: string,
                              invoke: LambdaTransport, parse: Decoder)
    returns (result: Outcome, caller: Message, trace: seq<Event>)
    ensures caller == ValidateMessageWithSchema(message).message
    ensures ValidatedBeforeTransport(trace)
    ensures TransportCalls(trace) == (if Conforms(message) then 1 else 0)
    ensures !Conforms(message) ==>
              && trace == [SchemaChecked(false)]
              && result == Failure(ValueError, ValidateMessageWithSchema(message).error.value)
    ensures Conforms(message) ==>
              && trace == [SchemaChecked(true), LambdaInvoke(arn, caller, region)]
              && result == LambdaOutcome(invoke(arn, caller, region), parse)
    ensures Conforms(message) && result.Failure? ==> IsRuntimeError(result.kind)
  {
    var checked;
    checked, trace := ValidateStep(message, []);
    caller := checked.message;
    if checked.error.Some? {
      result := Failure(ValueError, checked.error.value);
      return;
    }
    assert trace == [SchemaChecked(true)];
    var reply;
    reply, trace := Invoke(invoke, arn, caller, region, trace);
    result := LambdaOutcome(reply, parse);
  }
}

=== FILE: producer_legacy.dfy ===
/**
 * The first client (clients/python/producer.py): no default-fill; the
 * caller's message is validated and, when valid, posted exactly as given.
 */
module ProducerLegacy {
  import opened Wrappers
  import opened JsonValues
  import opened Outcomes
  import opened Schema
  import opened HttpResult
  import opened Trace

  /**
   * `send_to_producer(url, message, region, service, schema_path)`:
   * validate, then one signed POST of the unchanged message and the
   * response mapping.
   */
  method SendToProducer(url: string, message: Message, region: string, service: string,
                        post: HttpTransport, parse: Decoder)
    returns (result: Outcome, caller: Message, trace: seq<Event>)
    ensures caller == message
    ensures ValidatedBeforeTransport(trace)
    ensures TransportCalls(trace) == (if Conforms(message) then 1 else 0)
    ensures !Conforms(message) ==>
              && trace == [SchemaChecked(false)]
              && result == Failure(ValueError, InvalidStructure(Validate(message).value))
    ensures Conforms(message) ==>
              && trace == [SchemaChecked(true), SignedPost(url, message, region, service)]
              && result == HttpOutcome(post(url, message, region, service), parse)
  {
    caller := message;
    var violation;
    violation, trace := CheckSchema(message, []);
    if violation.Some? {
      result := Failure(ValueError, InvalidStructure(violation.value));
      return;
    }
    assert trace == [SchemaChecked(true)];
    var reply;
    reply, trace := Post(post, url, message, region, service, trace);
    result := HttpOutcome(reply, parse);
  }
}

=== FILE: producer_packaged.dfy ===
/**
 * The packaged URL-only client (clients/python/kindo_message_client/producer.py):
 * the default-fill is written inline, and validation, the signed POST and
 * the response mapping follow as in the current client.
 */
module ProducerPackaged {
  import opened Wrappers
  import opened JsonValues
  import opened Outcomes
  import opened Schema
  import opened HttpResult
  import opened Trace

  /**
   * The inline `if "security_level" not in message: message[...] = "normal"`:
   * the same fill as the current client's.
   */
  method FillInline(message: Message) returns (caller: Message)
    ensures caller == DefaultFill(message)
  {
    caller := message;
    if !Has(caller, SecurityLevelKey) {
      caller := Insert(caller, SecurityLevelKey, DefaultSecurityLevel);
    }
  }

  /**
   * `send_to_producer(url, message, region, service, schema_path)`: fill the
   * default, validate, then one signed POST and the response mapping.
   */
  method SendToProducer(url: string, message: Message, region: string, service: string,
                        post: HttpTransport, parse: Decoder)
    returns (result: Outcome, caller: Message, trace: seq<Event>)
    ensures caller == DefaultFill(message)
    ensures ValidatedBeforeTransport(trace)
    ensures TransportCalls(trace) == (if Conforms(message) then 1 else 0)
    ensures !Conforms(message) ==>
              && trace == [SchemaChecked(false)]
              && result == Failure(ValueError, InvalidStructure(Validate(caller).value))
    ensures Conforms(message) ==>
              && trace == [SchemaChecked(true), SignedPost(url, caller, region, service)]
              && result == HttpOutcome(post(url, caller, region, service), parse)
  {
    caller := FillInline(message);
    DefaultFillPreservesConformance(message);
    var violation;
    violation, trace := CheckSchema(caller, []);
    if violation.Some? {
      result := Failure(ValueError, InvalidStructure(violation.value));
      return;
    }
    assert trace == [SchemaChecked(true)];
    var reply;
    reply, trace := Post(post, url, caller, region, service, trace);
    result := HttpOutcome(reply, parse);
  }
}

=== FILE: scenarios.dfy ===
/**
 * The concrete cases the client's own tests exercise, stated over the model:
 * the fixture message, a missing `event_type`, the default and a preserved
 * security level, an unknown level, and the Lambda answers the tests mock.
 */
module Scenarios {
  import opened Wrappers
  import opened Decimal
  import opened JsonValues
  import opened Outcomes
  import opened Schema
  import opened LambdaResult
  import opened ProducerLatest

  /** The tests' `valid_message` fixture. */
  const Fixture: Message := [
    ("event_type", JStr("hello.world")),
    ("message_channel", JStr("test.client")),
    ("behavior", JStr("instant")),
    ("payload", JObject([("test_name", JStr("integration test"))]))
  ]

  /** The fixture, with `level` appended when it is given. */
  function WithLevel(level: Option<string>): Message {
    match level
    case None => Fixture
    case Some(l) => Fixture + [(SecurityLevelKey, JStr(l))]
  }

  /** The fixture conforms to the schema, and so does it with either allowed level. */
  lemma FixtureConforms(level: Option<string>)
    requires level in {None, Some("sensitive"), Some("normal")}
    ensures Conforms(WithLevel(level))
  {
    var m := WithLevel(level);
    LookupFindsFirst(m, "event_type", 0);
    LookupFindsFirst(m, "message_channel", 1);
    LookupFindsFirst(m, "behavior", 2);
    LookupFindsFirst(m, "payload", 3);
    if level.Some? {
      LookupFindsFirst(m, SecurityLevelKey, 4);
    }
  }

  /** The fixture without a level passes validation with "normal" appended. */
  lemma FixtureGetsNormalLevel()
    ensures ValidateMessageWithSchema(Fixture) == Checked(WithLevel(Some("normal")), None)
  {
    FixtureConforms(None);
  }

  /** A "sensitive" level passes validation untouched. */
  lemma SensitiveLevelKept()
    ensures ValidateMessageWithSchema(WithLevel(Some("sensitive")))
              == Checked(WithLevel(Some("sensitive")), None)
  {
    var m := WithLevel(Some("sensitive"));
    LookupFindsFirst(m, SecurityLevelKey, 4);
    assert DefaultFill(m) == m;
    FixtureConforms(Some("sensitive"));
    assert Validate(m).None?;
  }

  /** A level outside the enumeration is rejected. */
  lemma UnknownLevelRejected()
    ensures ValidateMessageWithSchema(WithLevel(Some("invalid_value"))).error.Some?
  {
    LookupFindsFirst(WithLevel(Some("invalid_value")), SecurityLevelKey, 4);
  }

  /** Without `event_type` the fixture is rejected naming that key (see `MissingKeyNamed` for the text). */
  lemma MissingEventTypeNamed()
    ensures ValidateMessageWithSchema(Fixture[1..]).error == Some(InvalidStructure(Missing("event_type")))
  {
    var m := Fixture[1..];
    assert !Has(m, "event_type") by {
      assert forall i :: 0 <= i < |m| ==> m[i].0 != "event_type";
    }
    ValidateReportsFirstMissing(DefaultFill(m), 0);
  }

  /** A direct (flat) answer carrying a tracking id returns it. */
  lemma DirectAnswer(raw: string, parse: Decoder)
    requires parse(raw) == Parsed(JObject([("tracking_id", JStr("test-tracking-123"))]))
    ensures LambdaOutcome(Delivered(InvokeResponse(200, raw)), parse) == Success(Some(JStr("test-tracking-123")))
  {
  }

  /** A gateway-wrapped 200 whose str body holds the tracking id returns it. */
  lemma GatewayAnswer(raw: string, body: string, parse: Decoder)
    requires parse(raw) == Parsed(JObject([("statusCode", JInt(200)), ("body", JStr(body))]))
    requires parse(body) == Parsed(JObject([("tracking_id", JStr("api-gateway-tracking-456"))]))
    ensures LambdaOutcome(Delivered(InvokeResponse(200, raw)), parse)
              == Success(Some(JStr("api-gateway-tracking-456")))
  {
    LookupFindsFirst([("statusCode", JInt(200)), ("body", JStr(body))], BodyKey, 1);
  }

  /** A channel status of 500 fails citing that status, whatever the decoded payload holds. */
  lemma ChannelFailure(raw: string, parse: Decoder)
    requires parse(raw) == Parsed(JObject([("errorMessage", JStr("Internal error"))]))
    ensures LambdaOutcome(Delivered(InvokeResponse(500, raw)), parse)
              == Failure(RuntimeError, ChannelFailedPrefix + "500")
  {
    assert NatToDecimal(5) == "5";
    assert NatToDecimal(50) == "50";
    assert IntToDecimal(500) == "500";
  }

  /** A gateway-wrapped 400 fails citing the inner status and the body. */
  lemma GatewayError(raw: string, body: string, parse: Decoder)
    requires parse(raw) == Parsed(JObject([("statusCode", JInt(400)), ("body", JStr(body))]))
    ensures LambdaOutcome(Delivered(InvokeResponse(200, raw)), parse)
              == Failure(RuntimeError, FailedToSendPrefix + "400" + " " + body)
  {
    var fields := [("statusCode", JInt(400)), ("body", JStr(body))];
    assert Lookup(fields, InnerStatusKey) == Some(JInt(400));
    LookupFindsFirst(fields, BodyKey, 1);
    assert NatToDecimal(4) == "4";
    assert NatToDecimal(40) == "40";
    assert Str(JInt(400)) == "400";
    assert NormalisePayload(JObject(fields), parse) == Failure(RuntimeError, FailedToSend("400", body));
  }

  /** An exception from the invoke call itself is wrapped with its text. */
  lemma InvokeRaised(parse: Decoder)
    ensures LambdaOutcome(Raised(OtherError("Exception"), "AWS credentials not found"), parse)
              == Failure(RuntimeError, InvokeFailedPrefix + "AWS credentials not found")
  {
  }
}

=== FILE: schema.dfy ===
/**
 * The producer message shape (the `ProducerPayload` TypedDict and the JSON
 * Schema document it mirrors), default-filling of `security_level`, and
 * schema validation reporting the first violation the way `jsonschema`
 * words it.
 */
module Schema {
  import opened Wrappers
  import opened JsonValues

  /** A producer message: the caller's dict. */
  type Message = Dict

  const SecurityLevelKey: string := "security_level"
  const DefaultSecurityLevel: Json := JStr("normal")
  const SecurityLevels: seq<string> := ["sensitive", "normal"]

  /** What the schema asks of one property's value. */
  datatype Rule = IsString | IsObject | IsConst(expected: Json) | OneOf(allowed: seq<string>)

  /** The keys every message must carry, in the schema's order. */
  const RequiredKeys: seq<string> := ["event_type", "message_channel", "behavior", "payload"]

  /** The rule for each declared property, in the schema's order. */
  const PropertyRules: seq<(string, Rule)> := [
    ("event_type", IsString),
    ("message_channel", IsString),
    ("behavior", IsConst(JStr("instant"))),
    ("payload", IsObject),
    ("security_level", OneOf(SecurityLevels))
  ]

  /**
   * The message shape as the TypedDict states it: two str fields, the
   * literal "instant", a dict payload, and an optional security level that
   * is "sensitive" or "normal". Other keys are allowed.
   */
  predicate Conforms(m: Message)
    ensures Conforms(m) ==> forall i :: 0 <= i < |RequiredKeys| ==> Has(m, RequiredKeys[i])
  {
    && Lookup(m, "event_type").Some? && Lookup(m, "event_type").value.JStr?
    && Lookup(m, "message_channel").Some? && Lookup(m, "message_channel").value.JStr?
    && Lookup(m, "behavior") == Some(JStr("instant"))
    && Lookup(m, "payload").Some? && Lookup(m, "payload").value.JObject?
    && Lookup(m, SecurityLevelKey) in {None, Some(JStr("sensitive")), Some(JStr("normal"))}
  }

  predicate Satisfies(v: Json, rule: Rule) {
    match rule
    case IsString => v.JStr?
    case IsObject => v.JObject?
    case IsConst(e) => v == e
    case OneOf(allowed) => v.JStr? && v.s in allowed
  }

  /** One schema violation. */
  datatype Violation = Missing(key: string) | Mismatch(key: string, value: Json, rule: Rule)

  /**
   * The `message` of the `jsonschema.ValidationError` for a violation: the
   * missing key's repr, or the offending value's repr (the expected constant
   * for a `const` rule), followed by what was asked of it.
   */
  function Describe(v: Violation): (d: string)
    ensures v.Missing? ==> ReprString(v.key) <= d
    ensures v.Mismatch? && !v.rule.IsConst? ==> Repr(v.value) <= d
    ensures v.Mismatch? && v.rule.IsConst? ==> Repr(v.rule.expected) <= d
  {
    match v
    case Missing(key) => ReprString(key) + " is a required property"
    case Mismatch(_, value, rule) =>
      match rule
      case IsString => Repr(value) + " is not of type 'string'"
      case IsObject => Repr(value) + " is not of type 'object'"
      case IsConst(e) => Repr(e) + " was expected"
      case OneOf(allowed) =>
        Repr(value) + " is not one of "
        + Repr(JArray(seq(|allowed|, k requires 0 <= k < |allowed| => JStr(allowed[k]))))
  }

  /** Index of the first key of `keys[from..]` that `m` lacks. */
  function FirstMissing(m: Message, keys: seq<string>, from: nat): (r: Option<nat>)
    requires from <= |keys|
    ensures r.None? <==> forall i :: from <= i < |keys| ==> Has(m, keys[i])
    ensures r.Some? ==> from <= r.value < |keys| && !Has(m, keys[r.value])
    ensures r.Some? ==> forall i :: from <= i < r.value ==> Has(m, keys[i])
    decreases |keys| - from
  {
    if from == |keys| then None
    else if !Has(m, keys[from]) then Some(from)
    else FirstMissing(m, keys, from + 1)
  }

  /** Index of the first rule of `rules[from..]` whose property `m` holds with a value breaking it. */
  function FirstMismatch(m: Message, rules: seq<(string, Rule)>, from: nat): (r: Option<nat>)
    requires from <= |rules|
    ensures r.None? <==> forall i :: from <= i < |rules| ==> PropertyHolds(m, rules[i])
    ensures r.Some? ==> from <= r.value < |rules| && !PropertyHolds(m, rules[r.value])
    ensures r.Some? ==> forall i :: from <= i < r.value ==> PropertyHolds(m, rules[i])
    decreases |rules| - from
  {
    if from == |rules| then None
    else if !PropertyHolds(m, rules[from]) then Some(from)
    else FirstMismatch(m, rules, from + 1)
  }

  /** A property rule constrains the value only when the property is present. */
  predicate PropertyHolds(m: Message, rule: (string, Rule)) {
    match Lookup(m, rule.0)
    case None => true
    case Some(v) => Satisfies(v, rule.1)
  }

  /**
   * `jsonschema.validate` against the producer schema: `None` when the
   * message is valid, else the violation reported. A missing required key
   * is reported ahead of any property error (it sits closer to the root, so
   * `best_match` prefers it); ties go to the earlier key in schema order.
   */
  function Validate(m: Message): (r: Option<Violation>)
    ensures r.None? <==> Conforms(m)
    ensures (exists i :: 0 <= i < |RequiredKeys| && !Has(m, RequiredKeys[i])) <==> r.Some? && r.value.Missing?
    ensures r.Some? && r.value.Missing? ==> r.value.key in RequiredKeys && !Has(m, r.value.key)
    ensures r.Some? && r.value.Mismatch? ==>
              && (r.value.key, r.value.rule) in PropertyRules
              && Lookup(m, r.value.key) == Some(r.value.value) && !Satisfies(r.value.value, r.value.rule)
  {
    ConformsByRules(m);
    match FirstMissing(m, RequiredKeys, 0)
    case Some(i) => Some(Missing(RequiredKeys[i]))
    case None =>
      match FirstMismatch(m, PropertyRules, 0)
      case None => None
      case Some(i) =>
        var (key, rule) := PropertyRules[i];
        Some(Mismatch(key, Lookup(m, key).value, rule))
  }

  /**
   * The TypedDict shape is exactly what the schema's required list and
   * property rules accept together.
   */
  lemma ConformsByRules(m: Message)
    ensures Conforms(m) <==>
              && (forall i :: 0 <= i < |RequiredKeys| ==> Has(m, RequiredKeys[i]))
              && (forall i :: 0 <= i < |PropertyRules| ==> PropertyHolds(m, PropertyRules[i]))
  {
    if (forall i :: 0 <= i < |RequiredKeys| ==> Has(m, RequiredKeys[i]))
       && (forall i :: 0 <= i < |PropertyRules| ==> PropertyHolds(m, PropertyRules[i])) {
      assert Has(m, RequiredKeys[0]) && PropertyHolds(m, PropertyRules[0]);
      assert Has(m, RequiredKeys[1]) && PropertyHolds(m, PropertyRules[1]);
      assert Has(m, RequiredKeys[2]) && PropertyHolds(m, PropertyRules[2]);
      assert Has(m, RequiredKeys[3]) && PropertyHolds(m, PropertyRules[3]);
      assert PropertyHolds(m, PropertyRules[4]);
    }
  }

  /** When some required keys are missing, the one reported is the first of them. */
  lemma ValidateReportsFirstMissing(m: Message, i: nat)
    requires i < |RequiredKeys| && !Has(m, RequiredKeys[i])
    requires forall j :: 0 <= j < i ==> Has(m, RequiredKeys[j])
    ensures Validate(m) == Some(Missing(RequiredKeys[i]))
  {
    assert FirstMissing(m, RequiredKeys, 0).Some?;
  }

  /**
   * With every required key present, the violation reported is the first
   * property in schema order whose value breaks its rule, blamed on that
   * property's own rule.
   */
  lemma ValidateReportsFirstMismatch(m: Message, i: nat)
    requires forall j :: 0 <= j < |RequiredKeys| ==> Has(m, RequiredKeys[j])
    requires i < |PropertyRules| && !PropertyHolds(m, PropertyRules[i])
    requires forall j :: 0 <= j < i ==> PropertyHolds(m, PropertyRules[j])
    ensures Validate(m) == Some(Mismatch(PropertyRules[i].0, Lookup(m, PropertyRules[i].0).value, PropertyRules[i].1))
  {
    assert FirstMissing(m, RequiredKeys, 0).None?;
    assert FirstMismatch(m, PropertyRules, 0) == Some(i);
  }

  /** A security level outside {"sensitive", "normal"} is rejected. */
  lemma UnknownSecurityLevelRejected(m: Message, level: Json)
    requires Lookup(m, SecurityLevelKey) == Some(level)
    requires level !in {JStr("sensitive"), JStr("normal")}
    ensures Validate(m).Some?
  {
  }

  const InvalidStructurePrefix: string := "Invalid message structure: "

  /** The text of the ValueError raised for a violation. */
  function InvalidStructure(v: Violation): (msg: string)
    ensures InvalidStructurePrefix <= msg
  {
    InvalidStructurePrefix + Describe(v)
  }

  /** The ValueError for a missing key names the key in quotes. */
  lemma MissingKeyNamed(key: string)
    requires forall i :: 0 <= i < |key| ==> key[i] !in ['\\', '\'', '\n', '\r', '\t']
    ensures InvalidStructure(Missing(key)) == InvalidStructurePrefix + "'" + key + "'" + " is a required property"
  {
    ReprPlain(key);
  }

  /**
   * Adds `security_level: "normal"` when the key is absent, at the end as a
   * Python dict does; a message that has the key is left as it is.
   */
  function DefaultFill(m: Message): (r: Message)
    ensures Has(m, SecurityLevelKey) ==> r == m
    ensures !Has(m, SecurityLevelKey) ==> Lookup(r, SecurityLevelKey) == Some(DefaultSecurityLevel)
    ensures |r| >= |m| && r[..|m|] == m
    ensures Has(r, SecurityLevelKey)
    ensures forall k :: k != SecurityLevelKey ==> Lookup(r, k) == Lookup(m, k)
  {
    if Has(m, SecurityLevelKey) then m else Insert(m, SecurityLevelKey, DefaultSecurityLevel)
  }

  /**
   * Filling the default never changes whether a message is valid: the
   * default lies inside the allowed levels, and nothing else is touched.
   */
  lemma DefaultFillPreservesConformance(m: Message)
    ensures Conforms(DefaultFill(m)) <==> Conforms(m)
  {
  }

  /** Filling twice fills no more than filling once. */
  lemma DefaultFillIdempotent(m: Message)
    ensures DefaultFill(DefaultFill(m)) == DefaultFill(m)
  {
  }
}

=== FILE: trace.dfy ===
/**
 * What an entry point did, in order: the schema check and the transport
 * calls it made. Each event is recorded by the step that performs it, so a
 * trace lists the steps in the order the entry point took them. The
 * ordering guarantee of the producer is stated on these traces: nothing
 * reaches a transport before the message has passed the schema check.
 */
module Trace {
  import opened Wrappers
  import opened Outcomes
  import opened Schema
  import opened HttpResult
  import opened LambdaResult

  datatype Event =
    | SchemaChecked(passed: bool)
    | SignedPost(url: string, body: Message, region: string, service: string)
    | LambdaInvoke(arn: string, payload: Message, region: string)

  predicate IsTransport(e: Event) {
    !e.SchemaChecked?
  }

  /** The number of transport calls in a trace. */
  function TransportCalls(t: seq<Event>): (n: nat)
    ensures n <= |t|
    ensures n == 0 <==> forall i :: 0 <= i < |t| ==> !IsTransport(t[i])
  {
    if |t| == 0 then 0
    else (if IsTransport(t[0]) then 1 else 0) + TransportCalls(t[1..])
  }

  /** Every transport call comes after a schema check that passed. */
  predicate ValidatedBeforeTransport(t: seq<Event>) {
    forall i :: 0 <= i < |t| && IsTransport(t[i]) ==>
      exists j :: 0 <= j < i && t[j] == SchemaChecked(true)
  }

  /** One more event adds one to the count exactly when it is a transport call. */
  lemma {:induction false} TransportCallsAppend(t: seq<Event>, e: Event)
    ensures TransportCalls(t + [e]) == TransportCalls(t) + (if IsTransport(e) then 1 else 0)
    decreases |t|
  {
    if |t| > 0 {
      assert (t + [e])[1..] == t[1..] + [e];
      TransportCallsAppend(t[1..], e);
    }
  }

  /**
   * Appending keeps the order as long as a transport call is appended only
   * after a passed check is on record.
   */
  lemma AppendInOrder(t: seq<Event>, e: Event)
    requires ValidatedBeforeTransport(t)
    requires IsTransport(e) ==> SchemaChecked(true) in t
    ensures ValidatedBeforeTransport(t + [e])
  {
    var t' := t + [e];
    forall i | 0 <= i < |t'| && IsTransport(t'[i])
      ensures exists j :: 0 <= j < i && t'[j] == SchemaChecked(true)
    {
      if i < |t| {
        assert t'[i] == t[i];
        var j :| 0 <= j < i && t[j] == SchemaChecked(true);
        assert t'[j] == t[j];
      } else {
        var j :| 0 <= j < |t| && t[j] == SchemaChecked(true);
        assert t'[j] == t[j];
      }
    }
  }

  /**
   * The schema check as a step: validates `m` and records whether it
   * passed.
   */
  method CheckSchema(m: Message, t: seq<Event>) returns (violation: Option<Violation>, t': seq<Event>)
    ensures violation == Validate(m)
    ensures violation.None? <==> Conforms(m)
    ensures t' == t + [SchemaChecked(Conforms(m))]
    ensures ValidatedBeforeTransport(t) ==> ValidatedBeforeTransport(t')
    ensures TransportCalls(t') == TransportCalls(t)
  {
    violation := Validate(m);
    t' := t + [SchemaChecked(violation.None?)];
    if ValidatedBeforeTransport(t) {
      AppendInOrder(t, SchemaChecked(violation.None?));
    }
    TransportCallsAppend(t, SchemaChecked(violation.None?));
  }

  /** `signed_post` as a step: the one place a POST happens, recorded as it happens. */
  method Post(post: HttpTransport, url: string, m: Message, region: string, service: string, t: seq<Event>)
    returns (reply: Delivery<HttpResponse>, t': seq<Event>)
    ensures reply == post(url, m, region, service)
    ensures t' == t + [SignedPost(url, m, region, service)]
    ensures ValidatedBeforeTransport(t) && SchemaChecked(true) in t ==> ValidatedBeforeTransport(t')
    ensures TransportCalls(t') == TransportCalls(t) + 1
  {
    reply := post(url, m, region, service);
    t' := t + [SignedPost(url, m, region, service)];
    if ValidatedBeforeTransport(t) && SchemaChecked(true) in t {
      AppendInOrder(t, SignedPost(url, m, region, service));
    }
    TransportCallsAppend(t, SignedPost(url, m, region, service));
  }

  /** The Lambda `invoke` as a step: the one place an invocation happens, recorded as it happens. */
  method Invoke(invoke: LambdaTransport, arn: string, m: Message, region: string, t: seq<Event>)
    returns (reply: Delivery<InvokeResponse>, t': seq<Event>)
    ensures reply == invoke(arn, m, region)
    ensures t' == t + [LambdaInvoke(arn, m, region)]
    ensures ValidatedBeforeTransport(t) && SchemaChecked(true) in t ==> ValidatedBeforeTransport(t')
    ensures TransportCalls(t') == TransportCalls(t) + 1
  {
    reply := invoke(arn, m, region);
    t' := t + [LambdaInvoke(arn, m, region)];
    if ValidatedBeforeTransport(t) && SchemaChecked(true) in t {
      AppendInOrder(t, LambdaInvoke(arn, m, region));
    }
    TransportCallsAppend(t, LambdaInvoke(arn, m, region));
  }
}

=== FILE: wrappers.dfy ===
/** The optional-value type shared by every module of the model. */
module Wrappers {

  /** Python's "maybe a value": `None` or some value. */
  datatype Option<+T> = None | Some(value: T) {

    /** The wrapped value, or `default` when there is none. */
    function GetOr(default: T): T {
      match this
      case Some(v) => v
      case None => default
    }
  }
}
